=== FILE: README.md ===
# Pipeline dashboard: session, routing, telemetry and simulation logic in Dafny

This project models the non-presentational logic of a client-side
monitoring dashboard for a petroleum pipeline network. The modelled parts are:

- the authentication context: session state, browser storage, `checkAuth`, `login`, `logout` and the mount effect;
- the route table and the `ProtectedRoute` gate;
- the pipeline health monitor's synthetic readings, chart labels and 10-entry sliding window;
- the 3D view's section colour classification and critical flags;
- the settings page's local threshold edits, reset, delayed save, theme switch, colour bands and sliders;
- the population-load simulator's tick, toggle, reset, load bands and two 20-entry series;
- the public dashboard's randomly drawn status banner.

Everything is written as immutable datatypes and pure functions (plus one
method with a loop for the backfill). Inputs from the environment are explicit
parameters:

- `Math.random()` draws, as reals in `[0, 1)`;
- `Date.now()`, in epoch milliseconds;
- the local time-zone offset, as a function from each instant to the offset in force then;
- the `Math.sin` variance of the simulator.

The base64/JSON token and user codecs are passed in as partial functions
(`Session.Codec`). Sensor readings are integers in tenths of their unit. Classifier
inputs, thresholds and simulation values are `real`.

Modules, one per component: `Wrappers` (Option), `Decimal` (integer
rendering and `padStart`), `Window` (the two sliding-window styles),
`Session`, `Routing`, `HealthMonitor`, `Visualization`, `SettingsPage`,
`SimulationPage`, `PublicStatus`.

Behaviour of the program worth noting:

- `login` stores the token and user and signs in at once. It does not re-run `checkAuth`, so a malformed or expired token still yields an authenticated session (`Session.LoginThenCheckAuth`).
- `logout` removes exactly the two keys `authToken` and `user`. It removes nothing else.
- `src/pages/Settings.tsx:12` reads `theme`, `setTheme`, `thresholds` and `updateThresholds` from the authentication context, which declares none of them (`src/contexts/AuthContext.tsx:11-18`). The threshold store and theme persistence are therefore not part of this model. The context thresholds and theme are inputs to the settings page model. The values it hands to `updateThresholds` and `setTheme` are outputs.
- `checkAuth` stores whatever `JSON.parse` returns for the user. A stored user of `null` next to a live token gives an authenticated session with no user (`Session.NullUserStillAuthenticates`). The session invariant is therefore one-directional: a user is held only while authenticated.

## Model

| member | source | states |
|---|---|---|
| `Session.CheckAuth` | src/contexts/AuthContext.tsx:35-59 | succeeds iff both keys are present and non-empty, the token decodes, its `exp` is present, non-zero and above the current epoch second, and the user parses; success signs in with the parsed user, failure signs out with no user; storage and the loading flag are untouched |
| `Session.Mount` | src/contexts/AuthContext.tsx:23-32 | from the initial signed-out, loading state, runs `checkAuth` and clears the loading flag; authenticated exactly when the stored session is restorable, and then holding the user parsed from storage, otherwise no user |
| `Session.Login` | src/contexts/AuthContext.tsx:61-66 | stores the token as given and the encoded user, leaves every other key alone, and signs in with exactly the given user without validating the token |
| `Session.Logout` | src/contexts/AuthContext.tsx:68-74 | removes exactly `authToken` and `user`, keeps all other keys and values, signs out, and navigates to `/login` |
| `Session.GetItem` | src/contexts/AuthContext.tsx:36-37 | a stored value is present exactly when its key is in storage, and is that key's value |
| `Session.CheckAuthNeedsBothKeys` | src/contexts/AuthContext.tsx:36-39 | `checkAuth` can succeed only if both keys are present and non-empty |
| `Session.ExpiredTokenRejected` | src/contexts/AuthContext.tsx:43-58 | a token whose `exp` is at or before the current second fails, and the token stays in storage |
| `Session.LogoutThenCheckAuthFails` | src/contexts/AuthContext.tsx:35-74 | after `logout`, `checkAuth` fails at every time under every codec |
| `Session.LoginThenCheckAuth` | src/contexts/AuthContext.tsx:35-66 | after `login`, `checkAuth` succeeds with the same user iff the token is non-empty and decodes to an unexpired `exp` (given a user encoding that reads back) |
| `Session.NullUserStillAuthenticates` | src/contexts/AuthContext.tsx:43-48 | a live token with a stored user of JSON `null` restores an authenticated session holding no user |
| `Session.RunPreservesConsistency` | src/contexts/AuthContext.tsx:22-74 | after mount, every sequence of `checkAuth`, `login` and `logout` keeps "user held implies authenticated" and never sets the loading flag again |
| `Routing.Gate` | src/components/ProtectedRoute.tsx:9-22 | spinner while loading; otherwise the protected page when authenticated, else a redirect to `/login` |
| `Routing.GateExclusiveAndTerminating` | src/components/ProtectedRoute.tsx:9-22 | exactly one of spinner, page and redirect for each input, and the redirect target renders the ungated login page |
| `Routing.Lookup` | src/App.tsx:37-45 | a found route has exactly the requested path; when none is found, no declared route has that path |
| `Routing.Render` | src/App.tsx:37-45 | `/` and `/login` show their pages ungated; the four operator paths go through the gate; every other path shows `NotFound` ungated |
| `Routing.RoutePathsDistinct` | src/App.tsx:37-43 | the declared route paths are pairwise distinct |
| `Routing.GatedPagesShownWhenSignedIn` | src/App.tsx:39-44 | loaded and signed in, each operator path shows its own page |
| `Routing.LogoutLocksGatedPages` | src/components/ProtectedRoute.tsx:22 | after `logout`, every operator path redirects to `/login` |
| `HealthMonitor.DataRange` | src/components/PipelineHealthMonitor.tsx:43-49 | the ranges, in tenths: pressure 80-120, temperature 65-85, flow 200-300, vibration 0.5-2.5, humidity 40-60; each has a positive lower bound below its upper bound |
| `HealthMonitor.RoundToTenth` | src/components/PipelineHealthMonitor.tsx:53 | the result is the tenth nearest the exact value, ties upward |
| `HealthMonitor.RandomReading` | src/components/PipelineHealthMonitor.tsx:52-54 | a generated value lies within `[min, max]` and within half a tenth of the exact scaled draw |
| `HealthMonitor.GenerateReading` | src/components/PipelineHealthMonitor.tsx:57-66 | every field of a new reading is its own draw scaled into that field's range and rounded to a tenth, so lies within the range; the reading is stamped with the current time |
| `HealthMonitor.ChooseInterval` | src/components/PipelineHealthMonitor.tsx:77 | the tick interval is an integer in `[2000, 4999]` ms, the draw scaled by 3000 rounded down |
| `HealthMonitor.UpdateReadings` | src/components/PipelineHealthMonitor.tsx:90-99 | the window has length `min(old + 1, 10)`, is a suffix of the old window plus the new reading, ends with that reading, and drops nothing when the old window held fewer than 10 |
| `HealthMonitor.Backfill` | src/components/PipelineHealthMonitor.tsx:104-113 | exactly 10 in-range readings, entry `i` stamped `(9 - i)` half-intervals before its clock reading; strictly increasing timestamps when the interval is positive and the clock never runs backwards |
| `HealthMonitor.TicksKeepTen` | src/components/PipelineHealthMonitor.tsx:92-99 | once backfilled, the window always holds exactly the 10 most recent readings, in arrival order |
| `HealthMonitor.TenTicksFromEmpty` | src/components/PipelineHealthMonitor.tsx:92-99 | ten ticks from an empty window leave exactly those ten readings, in order |
| `HealthMonitor.LocalClock` | src/components/PipelineHealthMonitor.tsx:70-71 | local hours, minutes and seconds lie in `[0, 24)`, `[0, 60)`, `[0, 60)` and name the second of the local day that contains the instant shifted by its offset |
| `HealthMonitor.DayDigits` | src/components/PipelineHealthMonitor.tsx:71 | hours, minutes and seconds computed from the whole time value agree with the millisecond within the day |
| `HealthMonitor.FormatTimeLabel` | src/components/PipelineHealthMonitor.tsx:69-72 | a valid timestamp gives an 8-character `HH:MM:SS` label of digits and colons, using the offset in force at that timestamp; an out-of-range one gives `NaN:NaN:NaN` |
| `HealthMonitor.FormatTimeLabelRoundTrip` | src/components/PipelineHealthMonitor.tsx:69-72 | the label reads back as exactly the local hour, minute and second |
| `HealthMonitor.ToPoint` | src/components/PipelineHealthMonitor.tsx:80-87 | a chart point carries the reading's five values unchanged and the label of the reading's own timestamp |
| `HealthMonitor.FormatData` | src/components/PipelineHealthMonitor.tsx:80-87 | one chart point per reading, in order, each labelled with the offset in force at its own timestamp |
| `HealthMonitor.Current` | src/components/PipelineHealthMonitor.tsx:221 | the readout is the newest point's value for the field, and 0 when the chart is empty |
| `HealthMonitor.CurrentAfterUpdate` | src/components/PipelineHealthMonitor.tsx:221 | after a tick the readout shows the new reading's value; an empty chart shows 0 |
| `HealthMonitor.CurrentInRange` | src/components/PipelineHealthMonitor.tsx:221 | the readout of a window of generated readings lies within the field's range |
| `Visualization.SectionSeverity` | src/components/PipelineVisualization3D.tsx:24-31 | critical iff pressure > 200 or temperature > 80; warning iff not critical and pressure > 150 or temperature > 70; normal iff pressure <= 150 and temperature <= 70 |
| `Visualization.GetColor` | src/components/PipelineVisualization3D.tsx:24-32 | red `#FF4500` iff pressure > 200 or temperature > 80; orange `#FFA500` iff not red and pressure > 150 or temperature > 70; green `#39FF14` iff pressure <= 150 and temperature <= 70 |
| `Visualization.HexInjective` | src/components/PipelineVisualization3D.tsx:24-31 | different classes have different colours |
| `Visualization.FlowRateIgnored` | src/components/PipelineVisualization3D.tsx:24-31 | flow rate never changes a section's colour |
| `Visualization.BoundariesAreStrict` | src/components/PipelineVisualization3D.tsx:25-29 | at any temperature up to 70, pressure exactly 200 is a warning and pressure exactly 150 is normal |
| `Visualization.TemperatureBoundariesAreStrict` | src/components/PipelineVisualization3D.tsx:25-29 | at any pressure up to 150, temperature exactly 80 is a warning and temperature exactly 70 is normal |
| `Visualization.SeverityMonotone` | src/components/PipelineVisualization3D.tsx:24-31 | raising pressure or temperature never lowers the severity |
| `Visualization.Flags` | src/components/PipelineVisualization3D.tsx:169-171 | the three flags are pressure > 200, temperature > 80, flow > 300 |
| `Visualization.CriticalMatchesFlags` | src/components/PipelineVisualization3D.tsx:24-31 | a section is critical iff the pressure or temperature flag is set; the flow flag alone never makes it critical |
| `SettingsPage.Init` | src/pages/Settings.tsx:13-18 | the local thresholds start as a copy of the context thresholds |
| `SettingsPage.SyncFromContext` | src/pages/Settings.tsx:21-27 | after a context change the local thresholds equal the context thresholds |
| `SettingsPage.ChangeThreshold` | src/pages/Settings.tsx:39-44 | only the named field changes, to the slider's first value |
| `SettingsPage.Reset` | src/pages/Settings.tsx:56-61 | local thresholds become 200, 80, 300 |
| `SettingsPage.Save` | src/pages/Settings.tsx:46-54 | a save captures the current local thresholds and sets the saving flag; while saving, a click does nothing |
| `SettingsPage.SaveTimerFires` | src/pages/Settings.tsx:50-53 | the timer hands `updateThresholds` exactly the captured thresholds and clears the saving flag |
| `SettingsPage.SaveSendsLocal` | src/pages/Settings.tsx:46-54 | the thresholds saved are those on screen at the click, also when one slider moves while the timer runs |
| `SettingsPage.PendingSurvives` | src/pages/Settings.tsx:21-61 | while saving, no slider move, reset, context change or click changes the saving flag or the captured thresholds |
| `SettingsPage.SaveSendsLocalAcrossEdits` | src/pages/Settings.tsx:21-61 | after a click, any sequence of slider moves, resets, context changes and disabled clicks leaves the timer sending exactly the thresholds on screen at the click, and the saving flag cleared |
| `SettingsPage.EditsAfterClickShowOnScreen` | src/pages/Settings.tsx:21-61 | a context change or reset made while the timer runs is what the page shows after the timer fires, independent of the payload |
| `SettingsPage.ThemeFor` | src/pages/Settings.tsx:29-32 | checked gives `dark`, unchecked gives `light` |
| `SettingsPage.SwitchChecked` | src/pages/Settings.tsx:89 | the switch is on exactly when the theme is the one the on position selects, `dark` |
| `SettingsPage.ThemeSwitchRoundTrip` | src/pages/Settings.tsx:29-32 | the switch shows the theme chosen; re-choosing what the switch shows returns the theme iff it is `dark` or `light` |
| `SettingsPage.BandOf` | src/pages/Settings.tsx:108-111 | red iff above the upper cut, orange iff above the lower and not the upper, green otherwise |
| `SettingsPage.FieldBand` | src/pages/Settings.tsx:108-165 | pressure is red above 220 and green at or below 180, temperature red above 85 and green at or below 70, flow red above 320 and green at or below 280; orange in between |
| `SettingsPage.ValueClassFollowsBand` | src/pages/Settings.tsx:108-111 | each read-out's class, as written per field, is the class of its band, and distinct bands have distinct classes |
| `SettingsPage.SliderFor` | src/pages/Settings.tsx:116-174 | pressure 100 to 300 in steps of 5, temperature 50 to 100 in steps of 1, flow rate 150 to 350 in steps of 5; each range is a whole number of steps |
| `SettingsPage.SliderSpansBands` | src/pages/Settings.tsx:108-174 | each slider's lowest position shows green and its highest shows red |
| `SettingsPage.BandMonotone` | src/pages/Settings.tsx:108-165 | for each field's cuts (220/180, 85/70, 320/280), a larger value never has a lower band |
| `SettingsPage.DefaultsOnSliders` | src/pages/Settings.tsx:116-174 | 200, 80 and 300 lie in the slider ranges [100, 300], [50, 100], [150, 350] on their step grids, and each is in the orange band |
| `SimulationPage.Clamp` | src/pages/Simulation.tsx:28 | the load lies in [0, 100] and equals the input when that is already in range |
| `SimulationPage.Efficiency` | src/pages/Simulation.tsx:53 | efficiency is at least 70, equals the raw value when that is at least 70, and is exactly 70 when the raw value is at most 70 |
| `SimulationPage.Tick` | src/pages/Simulation.tsx:21-63 | while running: time + 1, load equal to the clamp of `population * 5` plus the variance, each series gains a sample labelled with the pre-tick time, and the newest efficiency is at least 70; while paused nothing changes |
| `SimulationPage.Toggle` | src/pages/Simulation.tsx:71-73 | flips running and changes nothing else |
| `SimulationPage.Reset` | src/pages/Simulation.tsx:75-81 | paused, time 0, load 0, both series empty, population kept |
| `SimulationPage.SetPopulation` | src/pages/Simulation.tsx:83-85 | only the population changes, to the slider's first value |
| `SimulationPage.LabelReadsBack` | src/pages/Simulation.tsx:40 | a label is a non-empty digit string followed by `s`, and its digits read back as the second it was taken |
| `SimulationPage.LabelInjective` | src/pages/Simulation.tsx:40 | samples from different seconds carry different labels |
| `SimulationPage.PushKeepsLabels` | src/pages/Simulation.tsx:32-45 | pushing the sample for the current second keeps a series labelled with consecutive seconds |
| `SimulationPage.TickAligned` | src/pages/Simulation.tsx:21-63 | a tick preserves the series invariant |
| `SimulationPage.RunAligned` | src/pages/Simulation.tsx:17-85 | from the initial page, any sequence of ticks, toggles, resets and slider moves keeps both series equally long, at most 20, and labelled with consecutive seconds |
| `SimulationPage.AlignedLabelsAgree` | src/pages/Simulation.tsx:39-57 | the two series carry the same label at each position |
| `SimulationPage.TickSeriesAreWindows` | src/pages/Simulation.tsx:32-45 | while running with both series within 20, the resource and the performance series each step exactly as the sensor monitor's append-then-keep-last window |
| `SimulationPage.BandOfLoad` | src/pages/Simulation.tsx:92-96 | normal iff load < 50, elevated iff 50 <= load < 80, critical iff load >= 80 |
| `SimulationPage.GetLoadStatus` | src/pages/Simulation.tsx:92-96 | message "normal" iff load < 50, "elevated" iff 50 <= load < 80, "critical" iff load >= 80, each with its text colour |
| `SimulationPage.GaugeBarClass` | src/pages/Simulation.tsx:202-205 | green bar iff load < 50, orange iff 50 <= load < 80, red iff load >= 80 |
| `SimulationPage.LoadIndicatorsAgree` | src/pages/Simulation.tsx:92-205 | the status message, its colour and the gauge bar colour follow the same three bands |
| `SimulationPage.InfraCapacity` | src/pages/Simulation.tsx:246 | CRITICAL iff population > 18, WARNING iff 12 < population <= 18, NORMAL otherwise |
| `SimulationPage.InfraCapacityMonotone` | src/pages/Simulation.tsx:246 | a larger population never shows a lower capacity line (NORMAL, WARNING, CRITICAL in that order) |
| `PublicStatus.FromDraw` | src/pages/PublicDashboard.tsx:19-29 | a draw below 0.8 gives green/Operational, below 0.95 orange/Under Maintenance, otherwise red/Offline; the pair is always consistent |
| `PublicStatus.AlwaysConsistent` | src/pages/PublicDashboard.tsx:7-29 | starting from green/Operational, after any run of draws colour and text form one of the three pairs, set by the latest draw |
| `Window.LastN` | src/components/PipelineHealthMonitor.tsx:95-96 | the kept part is a suffix of length `min(len, n)` |
| `Window.AppendTrim` | src/components/PipelineHealthMonitor.tsx:94-98 | length `min(old + 1, cap)`, a suffix of old plus new, ending in the new entry, and nothing dropped below the cap |
| `Window.ShiftPush` | src/pages/Simulation.tsx:33-42 | drops the oldest entry only when already at the cap, then appends; never exceeds the cap from a bounded window |
| `Window.ShiftPushIsAppendTrim` | src/pages/Simulation.tsx:33-42 | on bounded windows, the simulator's shift-then-push equals the monitor's append-then-trim |
| `Window.LastNAppend` | src/components/PipelineHealthMonitor.tsx:94-96 | trimming, appending and trimming again keeps the same entries as one trim |
| `Window.FeedIsLastN` | src/components/PipelineHealthMonitor.tsx:92-99 | after any non-empty run of ticks the window is the last `cap` of everything seen, in order |
| `Window.FeedBounded` | src/components/PipelineHealthMonitor.tsx:92-99 | a bounded window never grows past its cap |
| `Decimal.NatToString` | src/pages/Simulation.tsx:40 | a non-empty digit string, one digit exactly for values below 10, two for 10 to 99 |
| `Decimal.NatToStringNoLeadingZero` | src/pages/Simulation.tsx:40 | the numeral of a positive number never starts with `0`, so together with the round trip it is the shortest numeral, as a template literal renders it |
| `Decimal.ParseNatToString` | src/pages/Simulation.tsx:40 | rendering a number and reading it back gives the number |
| `Decimal.NatToStringInjective` | src/pages/Simulation.tsx:40 | distinct numbers render differently |
| `Decimal.PadStart` | src/components/PipelineHealthMonitor.tsx:71 | the result has length `max(len, width)`, ends with the input, and is filled in front |
| `Decimal.Pad2Digits` | src/components/PipelineHealthMonitor.tsx:71 | a number below 100 pads to its tens digit then its units digit |

## Left out

- All rendering, styling, charts, UI components, toasts and console logging. They are presentation over libraries that are not shown.
- The three.js scene, the per-frame rotation and the hover emissive effect. They are graphics-library state.
- Timers and their cleanup. Each interval tick or delayed save is one explicit step. The simulator's interval is re-created on every change of its dependencies; this does not change what one tick does.
- `Math.sin(simulationTime / 10) * 3` in the simulator is an arbitrary real `variance`. The clamp property holds for every value.
- Binary floating point. Arithmetic is exact on reals. `toFixed(1)` is modelled as round-half-up of the exact value, and `Math.floor(Date.now() / 1000)` as integer floor division.
- base64 and JSON decoding/encoding are abstract functions in `Session.Codec`. A token payload's `exp` is modelled as an optional number; non-numeric `exp` values are not modelled.
- Routing.Render: matches paths exactly. The router library's case-insensitive and trailing-slash matching is not modelled.
- `navigate` is recorded as an emitted `Navigate` effect. `lastUpdate` and its relative-time text (`date-fns`) are left out.
- SettingsPage.ChangeThreshold: requires a non-empty slider value array, which the slider always supplies. On an empty array the page would store `undefined`.
- SimulationPage.SetPopulation: requires a non-empty slider value array, for the same reason.
- The threshold store, `updateThresholds`, `setTheme` and theme persistence are referenced by the settings page but are not in the authentication context, so they are not part of this model.
- No page or component classifies readings against the configurable thresholds. The simulator's depletion-percentage and resource-allocation read-outs are plain display arithmetic.
- Pages `Admin`, `Dashboard`, `Index`, `Login`, `NotFound` and the layout: static sample data and local UI toggles. `Login` never calls `login`.

=== FILE: decimal.dfy ===
/** Decimal rendering of non-negative integers, as JavaScript's
    `Number.prototype.toString()` produces it for integral values below
    10^21 (larger ones print in exponent notation), and
    `String.prototype.padStart` with a one-character fill. */
module Decimal {

  predicate IsDigit(c: char) {
    '0' <= c <= '9'
  }

  predicate AllDigits(s: string) {
    forall i :: 0 <= i < |s| ==> IsDigit(s[i])
  }

  function DigitChar(d: nat): (c: char)
    requires d < 10
    ensures IsDigit(c)
  {
    ('0' as int + d) as char
  }

  function DigitValue(c: char): (d: nat)
    requires IsDigit(c)
    ensures d < 10
  {
    c as int - '0' as int
  }

  /** The shortest decimal numeral of `n`: no leading zeros, one digit for 0. */
  function NatToString(n: nat): (s: string)
    ensures 1 <= |s|
    ensures AllDigits(s)
    ensures n < 10 <==> |s| == 1
    ensures 10 <= n < 100 ==> |s| == 2
    decreases n
  {
    if n < 10 then [DigitChar(n)] else NatToString(n / 10) + [DigitChar(n % 10)]
  }

  /** The numeral of a positive number does not start with `0`. */
  lemma {:induction false} NatToStringNoLeadingZero(n: nat)
    ensures 0 < n ==> NatToString(n)[0] != '0'
    decreases n
  {
    if n >= 10 {
      NatToStringNoLeadingZero(n / 10);
    }
  }

  /** Reads a string of decimal digits back as a number (empty reads as 0). */
  function ParseNat(s: string): nat
    requires AllDigits(s)
    decreases |s|
  {
    if |s| == 0 then 0 else ParseNat(s[..|s| - 1]) * 10 + DigitValue(s[|s| - 1])
  }

  /** Rendering a number and reading it back gives the number again. */
  lemma {:induction false} ParseNatToString(n: nat)
    ensures ParseNat(NatToString(n)) == n
    decreases n
  {
    var s := NatToString(n);
    if n < 10 {
      assert s[..0] == [];
    } else {
      ParseNatToString(n / 10);
      assert s[..|s| - 1] == NatToString(n / 10);
    }
  }

  /** Two numbers render alike only if they are equal. */
  lemma NatToStringInjective(m: nat, n: nat)
    requires NatToString(m) == NatToString(n)
    ensures m == n
  {
    ParseNatToString(m);
    ParseNatToString(n);
  }

  /** `s.padStart(width, fill)`: prefixes copies of `fill` until `s` is `width` long. */
  function PadStart(s: string, width: nat, fill: char): (r: string)
    ensures |r| == if |s| >= width then |s| else width
    ensures r[|r| - |s|..] == s
    ensures forall i :: 0 <= i < |r| - |s| ==> r[i] == fill
  {
    if |s| >= width then s else seq(width - |s|, _ => fill) + s
  }

  /** `n.toString().padStart(2, '0')` for a number below 100: exactly the
      tens digit followed by the units digit. */
  lemma Pad2Digits(n: nat)
    requires n < 100
    ensures PadStart(NatToString(n), 2, '0') == [DigitChar(n / 10), DigitChar(n % 10)]
  {
    var q, r := n / 10, n % 10;
    assert n == q * 10 + r && r < 10;
    if n < 10 {
      assert q == 0 && r == n;
      assert NatToString(n) == [DigitChar(n)];
      assert PadStart([DigitChar(n)], 2, '0') == ['0'] + [DigitChar(n)];
    } else {
      assert q < 10;
      assert NatToString(q) == [DigitChar(q)];
      assert NatToString(n) == [DigitChar(q)] + [DigitChar(r)];
    }
  }
}

=== FILE: health_monitor.dfy ===
/** The pipeline health monitor: synthetic sensor readings drawn uniformly
    from fixed ranges and rounded to one decimal, a backfilled 10-entry
    window that slides by one reading per timer tick, chart time labels, and
    the "Current" readout. Sensor values are integers in tenths of their
    unit; `Math.random()` draws, `Date.now()` and the local time-zone offset at each instant
    are parameters. */
module HealthMonitor {
  import opened Window
  import opened Decimal

  datatype Field = Pressure | Temperature | FlowRate | Vibration | Humidity

  /** A closed range of sensor values, in tenths. */
  datatype Range = Range(min: int, max: int)

  /** The configured ranges: pressure 80-120 PSI, temperature 65-85 °C,
      flow 200-300 L/min, vibration 0.5-2.5 mm/s, humidity 40-60 %. */
  function DataRange(f: Field): (rg: Range)
    ensures 0 < rg.min < rg.max
    ensures f == Pressure ==> rg == Range(800, 1200)
    ensures f == Temperature ==> rg == Range(650, 850)
    ensures f == FlowRate ==> rg == Range(2000, 3000)
    ensures f == Vibration ==> rg == Range(5, 25)
    ensures f == Humidity ==> rg == Range(400, 600)
  {
    match f
    case Pressure => Range(800, 1200)
    case Temperature => Range(650, 850)
    case FlowRate => Range(2000, 3000)
    case Vibration => Range(5, 25)
    case Humidity => Range(400, 600)
  }

  /** A reading; `timestamp` is in epoch milliseconds and may be fractional. */
  datatype SensorReading = SensorReading(
    timestamp: real, pressure: int, temperature: int, flowRate: int, vibration: int, humidity: int)

  function Value(r: SensorReading, f: Field): int {
    match f
    case Pressure => r.pressure
    case Temperature => r.temperature
    case FlowRate => r.flowRate
    case Vibration => r.vibration
    case Humidity => r.humidity
  }

  predicate InRange(v: int, rg: Range) {
    rg.min <= v <= rg.max
  }

  predicate InRanges(r: SensorReading) {
    forall f: Field :: InRange(Value(r, f), DataRange(f))
  }

  /** One `Math.random()` result per field. */
  datatype Draws = Draws(pressure: real, temperature: real, flowRate: real, vibration: real, humidity: real)

  predicate UnitDraw(x: real) {
    0.0 <= x < 1.0
  }

  predicate ValidDraws(d: Draws) {
    UnitDraw(d.pressure) && UnitDraw(d.temperature) && UnitDraw(d.flowRate)
    && UnitDraw(d.vibration) && UnitDraw(d.humidity)
  }

  /** `toFixed(1)` read back as a number, expressed in tenths: the nearest
      tenth, ties going up. */
  function RoundToTenth(tenths: real): (t: int)
    ensures tenths - 0.5 < t as real <= tenths + 0.5
  {
    (tenths + 0.5).Floor
  }

  lemma ScaleBelowSpan(r: real, span: real)
    requires UnitDraw(r) && 0.0 <= span
    ensures 0.0 <= r * span <= span
  {
    assert span - r * span == (1.0 - r) * span;
  }

  lemma RoundWithin(exact: real, lo: int, hi: int)
    requires lo as real <= exact <= hi as real
    ensures lo <= RoundToTenth(exact) <= hi
  {
  }

  /** `generateRandomReading(min, max)`: a draw scaled into the range and
      rounded to one decimal; the result never leaves the range. */
  function RandomReading(rg: Range, r: real): (t: int)
    requires UnitDraw(r)
    ensures rg.min <= rg.max ==> InRange(t, rg)
    ensures var exact := rg.min as real + r * (rg.max - rg.min) as real;
            exact - 0.5 < t as real <= exact + 0.5
  {
    var span := (rg.max - rg.min) as real;
    var exact := rg.min as real + r * span;
    if rg.min <= rg.max then
      ScaleBelowSpan(r, span);
      RoundWithin(exact, rg.min, rg.max);
      RoundToTenth(exact)
    else RoundToTenth(exact)
  }

  /** `generateSensorReading()` at clock time `now`. */
  function GenerateReading(now: real, d: Draws): (s: SensorReading)
    requires ValidDraws(d)
    ensures s.timestamp == now
    ensures InRanges(s)
    ensures s.pressure == RandomReading(DataRange(Pressure), d.pressure)
    ensures s.temperature == RandomReading(DataRange(Temperature), d.temperature)
    ensures s.flowRate == RandomReading(DataRange(FlowRate), d.flowRate)
    ensures s.vibration == RandomReading(DataRange(Vibration), d.vibration)
    ensures s.humidity == RandomReading(DataRange(Humidity), d.humidity)
  {
    SensorReading(now,
      RandomReading(DataRange(Pressure), d.pressure),
      RandomReading(DataRange(Temperature), d.temperature),
      RandomReading(DataRange(FlowRate), d.flowRate),
      RandomReading(DataRange(Vibration), d.vibration),
      RandomReading(DataRange(Humidity), d.humidity))
  }

  /** The tick interval chosen once per monitor: `floor(r * 3000) + 2000`
      milliseconds. */
  function ChooseInterval(r: real): (ms: int)
    requires UnitDraw(r)
    ensures 2000 <= ms <= 4999
    ensures 2000.0 + 3000.0 * r - 1.0 < ms as real <= 2000.0 + 3000.0 * r
  {
    (r * 3000.0).Floor + 2000
  }

  const WindowSize: nat := 10

  /** One timer tick: a fresh reading joins the window, which keeps only the
      last ten. */
  function UpdateReadings(w: seq<SensorReading>, now: real, d: Draws): (r: seq<SensorReading>)
    requires ValidDraws(d)
    ensures |r| == Min(|w| + 1, WindowSize)
    ensures IsSuffix(r, w + [GenerateReading(now, d)])
    ensures r[|r| - 1].timestamp == now && InRanges(r[|r| - 1])
    ensures |w| < WindowSize ==> r == w + [GenerateReading(now, d)]
  {
    AppendTrim(w, GenerateReading(now, d), WindowSize)
  }

  predicate Monotone(clock: seq<real>) {
    forall i, j :: 0 <= i < j < |clock| ==> clock[i] <= clock[j]
  }

  predicate StrictlyIncreasing(w: seq<SensorReading>) {
    forall i, j :: 0 <= i < j < |w| ==> w[i].timestamp < w[j].timestamp
  }

  /** The staggered timestamp of backfill entry `i`. */
  function BackfillTime(now: real, i: int, interval: int): real {
    now - (9 - i) as real * (interval as real / 2.0)
  }

  lemma BackfillTimeOrdered(a: real, b: real, i: int, j: int, interval: int)
    requires i < j && a <= b && 0 < interval
    ensures BackfillTime(a, i, interval) < BackfillTime(b, j, interval)
  {
    var h := interval as real / 2.0;
    assert (9 - i) as real * h - (9 - j) as real * h == (j - i) as real * h;
    assert 0.0 < (j - i) as real * h;
  }

  /** The mount effect's backfill: ten readings, entry `i` stamped `9 - i`
      half-intervals before the clock reading taken in that iteration. With
      a clock that never runs backwards, the timestamps strictly increase. */
  method Backfill(clock: seq<real>, interval: int, draws: seq<Draws>) returns (w: seq<SensorReading>)
    requires |clock| == WindowSize && |draws| == WindowSize
    requires forall i :: 0 <= i < |draws| ==> ValidDraws(draws[i])
    ensures |w| == WindowSize
    ensures forall i :: 0 <= i < |w| ==> w[i].timestamp == BackfillTime(clock[i], i, interval)
    ensures forall i :: 0 <= i < |w| ==> InRanges(w[i])
    ensures forall i :: 0 <= i < |w| ==> w[i] == GenerateReading(clock[i], draws[i]).(timestamp := w[i].timestamp)
    ensures 0 < interval && Monotone(clock) ==> StrictlyIncreasing(w)
  {
    w := [];
    var i := 0;
    while i < WindowSize
      invariant 0 <= i <= WindowSize && |w| == i
      invariant forall k :: 0 <= k < i ==> w[k].timestamp == BackfillTime(clock[k], k, interval)
      invariant forall k :: 0 <= k < i ==> InRanges(w[k])
      invariant forall k :: 0 <= k < i ==> w[k] == GenerateReading(clock[k], draws[k]).(timestamp := w[k].timestamp)
    {
      var reading := GenerateReading(clock[i], draws[i]);
      w := w + [reading.(timestamp := BackfillTime(clock[i], i, interval))];
      i := i + 1;
    }
    if 0 < interval && Monotone(clock) {
      forall i, j | 0 <= i < j < |w|
        ensures w[i].timestamp < w[j].timestamp
      {
        BackfillTimeOrdered(clock[i], clock[j], i, j, interval);
      }
    }
  }

  /** Once backfilled, the window stays exactly ten readings long, and holds
      the ten most recent readings in arrival order. */
  lemma TicksKeepTen(w: seq<SensorReading>, ticks: seq<SensorReading>)
    requires |w| == WindowSize && 0 < |ticks|
    ensures Feed(w, ticks, WindowSize) == LastN(w + ticks, WindowSize)
    ensures |Feed(w, ticks, WindowSize)| == WindowSize
  {
    FeedIsLastN(w, ticks, WindowSize);
  }

  /** Ten ticks from an empty window leave exactly those ten readings, in order. */
  lemma TenTicksFromEmpty(ticks: seq<SensorReading>)
    requires |ticks| == WindowSize
    ensures Feed([], ticks, WindowSize) == ticks
  {
    FeedIsLastN([], ticks, WindowSize);
    assert [] + ticks == ticks;
  }

  // ---- chart labels ----

  /** The largest magnitude of a valid `Date` time value, in milliseconds. */
  const MaxTimeValue: real := 8640000000000000.0

  /** The time value `new Date(t)` holds: `t` truncated toward zero. */
  function TimeValue(t: real): int {
    if t >= 0.0 then t.Floor else -((-t).Floor)
  }

  datatype Clock = Clock(hours: int, minutes: int, seconds: int)

  predicate ValidClock(c: Clock) {
    0 <= c.hours < 24 && 0 <= c.minutes < 60 && 0 <= c.seconds < 60
  }

  /** `getHours()`, `getMinutes()` and `getSeconds()` of a time value, with
      the local time-zone offset `offsetMs` in force at that instant added
      first: the clock names the second of the local day the instant falls in. */
  function LocalClock(tv: int, offsetMs: int): (c: Clock)
    ensures ValidClock(c)
    ensures var dayMs := (tv + offsetMs) % 86400000;
            var ms := c.hours * 3600000 + c.minutes * 60000 + c.seconds * 1000;
            ms <= dayMs < ms + 1000
  {
    var local := tv + offsetMs;
    DayDigits(local);
    Clock((local / 3600000) % 24, (local / 60000) % 60, (local / 1000) % 60)
  }

  /** Hours, minutes and seconds taken from the whole time value are the
      mixed-radix digits of the millisecond within the day. */
  lemma DayDigits(local: int)
    ensures var h, m, s := (local / 3600000) % 24, (local / 60000) % 60, (local / 1000) % 60;
            var ms := h * 3600000 + m * 60000 + s * 1000;
            ms <= local % 86400000 < ms + 1000
  {
    DayOfMs(local);
    HourRest(local);
    MinuteRest(local);
  }

  lemma MinutesOfMs(x: int)
    ensures x / 60000 == (x / 1000) / 60
  {
    var secs, milli := x / 1000, x % 1000;
    var mins, s := secs / 60, secs % 60;
    assert x == 60000 * mins + (1000 * s + milli);
  }

  lemma HoursOfMs(x: int)
    ensures x / 3600000 == (x / 60000) / 60
  {
    var mins, rest := x / 60000, x % 60000;
    var hours, m := mins / 60, mins % 60;
    assert x == 3600000 * hours + (60000 * m + rest);
  }

  /** The millisecond of the day is the hour of the day plus the millisecond
      of the hour. */
  lemma DayOfMs(x: int)
    ensures x % 86400000 == ((x / 3600000) % 24) * 3600000 + x % 3600000
  {
    var hours, rest := x / 3600000, x % 3600000;
    var days, h := hours / 24, hours % 24;
    assert x == 86400000 * days + (3600000 * h + rest);
  }

  lemma HourRest(x: int)
    ensures x % 3600000 == ((x / 60000) % 60) * 60000 + x % 60000
  {
    var mins, rest := x / 60000, x % 60000;
    var hours, m := mins / 60, mins % 60;
    HoursOfMs(x);
    assert x == 3600000 * hours + (60000 * m + rest);
  }

  lemma MinuteRest(x: int)
    ensures x % 60000 == ((x / 1000) % 60) * 1000 + x % 1000
  {
    var secs, milli := x / 1000, x % 1000;
    var mins, s := secs / 60, secs % 60;
    MinutesOfMs(x);
    assert x == 60000 * mins + (1000 * s + milli);
  }

  /** `n.toString().padStart(2, '0')`. */
  function Pad2(n: nat): string {
    PadStart(NatToString(n), 2, '0')
  }

  function LabelOf(c: Clock): string
    requires ValidClock(c)
  {
    Pad2(c.hours) + ":" + Pad2(c.minutes) + ":" + Pad2(c.seconds)
  }

  const InvalidLabel: string := "NaN:NaN:NaN"

  /** `formatTimeLabel(timestamp)`: `HH:MM:SS` in local time, where
      `offset(tv)` is the local time-zone offset in force at time value `tv`
      (so a window spanning a daylight-saving change is labelled with each
      instant's own offset); an out-of-range
      timestamp makes an invalid `Date`, whose fields all print as `NaN`. */
  function FormatTimeLabel(timestamp: real, offset: int -> int): (s: string)
    ensures -MaxTimeValue <= timestamp <= MaxTimeValue ==> WellFormedLabel(s)
    ensures !(-MaxTimeValue <= timestamp <= MaxTimeValue) ==> s == InvalidLabel
  {
    if -MaxTimeValue <= timestamp <= MaxTimeValue then
      var c := LocalClock(TimeValue(timestamp), offset(TimeValue(timestamp)));
      LabelShape(c);
      LabelOf(c)
    else InvalidLabel
  }

  /** Eight characters, `HH:MM:SS`, with two-digit zero-padded fields. */
  predicate WellFormedLabel(s: string) {
    && |s| == 8 && s[2] == ':' && s[5] == ':'
    && IsDigit(s[0]) && IsDigit(s[1]) && IsDigit(s[3])
    && IsDigit(s[4]) && IsDigit(s[6]) && IsDigit(s[7])
  }

  function TwoDigits(a: char, b: char): int
    requires IsDigit(a) && IsDigit(b)
  {
    DigitValue(a) * 10 + DigitValue(b)
  }

  /** Reads a label back into its clock fields. */
  function ParseLabel(s: string): Clock
    requires WellFormedLabel(s)
  {
    Clock(TwoDigits(s[0], s[1]), TwoDigits(s[3], s[4]), TwoDigits(s[6], s[7]))
  }

  lemma Pad2Shape(n: nat)
    requires n < 100
    ensures |Pad2(n)| == 2 && IsDigit(Pad2(n)[0]) && IsDigit(Pad2(n)[1])
    ensures TwoDigits(Pad2(n)[0], Pad2(n)[1]) == n
  {
    Pad2Digits(n);
    var q, r := n / 10, n % 10;
    assert DigitValue(DigitChar(q)) == q && DigitValue(DigitChar(r)) == r;
    assert q * 10 + r == n;
  }

  /** Where the pieces of a joined label land. */
  lemma JoinPositions(h: string, m: string, sec: string)
    requires |h| == 2 && |m| == 2 && |sec| == 2
    ensures var s := h + ":" + m + ":" + sec;
            && |s| == 8 && s[2] == ':' && s[5] == ':'
            && s[0] == h[0] && s[1] == h[1] && s[3] == m[0] && s[4] == m[1]
            && s[6] == sec[0] && s[7] == sec[1]
  {
  }

  lemma LabelShape(c: Clock)
    requires ValidClock(c)
    ensures WellFormedLabel(LabelOf(c))
    ensures ParseLabel(LabelOf(c)) == c
  {
    Pad2Shape(c.hours);
    Pad2Shape(c.minutes);
    Pad2Shape(c.seconds);
    JoinPositions(Pad2(c.hours), Pad2(c.minutes), Pad2(c.seconds));
  }

  /** The label of a valid timestamp reads back as exactly the local hour,
      minute and second it was made from. */
  lemma FormatTimeLabelRoundTrip(timestamp: real, offset: int -> int)
    requires -MaxTimeValue <= timestamp <= MaxTimeValue
    ensures var s := FormatTimeLabel(timestamp, offset);
            WellFormedLabel(s) && ParseLabel(s) == LocalClock(TimeValue(timestamp), offset(TimeValue(timestamp)))
  {
    LabelShape(LocalClock(TimeValue(timestamp), offset(TimeValue(timestamp))));
  }

  // ---- chart data and readout ----

  datatype DataPoint = DataPoint(
    time: string, pressure: int, temperature: int, flowRate: int, vibration: int, humidity: int)

  function PointValue(p: DataPoint, f: Field): int {
    match f
    case Pressure => p.pressure
    case Temperature => p.temperature
    case FlowRate => p.flowRate
    case Vibration => p.vibration
    case Humidity => p.humidity
  }

  /** One chart point: the reading's values under its time label. */
  function ToPoint(r: SensorReading, offset: int -> int): (p: DataPoint)
    ensures p.pressure == r.pressure && p.temperature == r.temperature && p.flowRate == r.flowRate
    ensures p.vibration == r.vibration && p.humidity == r.humidity
    ensures p.time == FormatTimeLabel(r.timestamp, offset)
  {
    DataPoint(FormatTimeLabel(r.timestamp, offset),
      r.pressure, r.temperature, r.flowRate, r.vibration, r.humidity)
  }

  /** `readings.map(...)`: each reading with its timestamp replaced by a label. */
  function FormatData(w: seq<SensorReading>, offset: int -> int): (ps: seq<DataPoint>)
    ensures |ps| == |w|
    ensures forall i :: 0 <= i < |w| ==> ps[i] == ToPoint(w[i], offset)
  {
    seq(|w|, i requires 0 <= i < |w| => ToPoint(w[i], offset))
  }

  /** The "Current" readout of one chart: the newest point's value, or 0 for
      an empty chart. */
  function Current(ps: seq<DataPoint>, f: Field): (v: int)
    ensures |ps| == 0 ==> v == 0
    ensures 0 < |ps| ==> v == PointValue(ps[|ps| - 1], f)
  {
    if |ps| > 0 then PointValue(ps[|ps| - 1], f) else 0
  }

  /** After a tick the readout shows the reading just generated, and before
      any data it shows 0. */
  lemma CurrentAfterUpdate(w: seq<SensorReading>, now: real, d: Draws, offset: int -> int, f: Field)
    requires ValidDraws(d)
    ensures Current(FormatData(UpdateReadings(w, now, d), offset), f) == Value(GenerateReading(now, d), f)
    ensures Current(FormatData([], offset), f) == 0
  {
  }

  /** Every readout of a non-empty window lies in its field's range. */
  lemma CurrentInRange(w: seq<SensorReading>, offset: int -> int, f: Field)
    requires 0 < |w| && forall i :: 0 <= i < |w| ==> InRanges(w[i])
    ensures InRange(Current(FormatData(w, offset), f), DataRange(f))
  {
    assert InRanges(w[|w| - 1]);
  }
}

=== FILE: public_status.dfy ===
/** The public status banner: starts operational and, every 15 seconds,
    re-draws its colour and text from one `Math.random()` draw. The two are
    separate pieces of state in the page; here they are kept side by side so
    that their agreement can be stated. */
module PublicStatus {

  datatype StatusColor = Green | Orange | Red

  datatype Status = Status(color: StatusColor, text: string)

  const InitialStatus: Status := Status(Green, "Operational")

  /** The three colour/text pairs the banner is meant to show. */
  predicate Consistent(s: Status) {
    || s == Status(Green, "Operational")
    || s == Status(Orange, "Under Maintenance")
    || s == Status(Red, "Offline")
  }

  /** The status interval's body for a draw `r`. */
  function FromDraw(r: real): (s: Status)
    ensures Consistent(s)
    ensures s.color == Green <==> r < 0.8
    ensures s.color == Orange <==> 0.8 <= r < 0.95
    ensures s.color == Red <==> r >= 0.95
  {
    if r < 0.8 then Status(Green, "Operational")
    else if r < 0.95 then Status(Orange, "Under Maintenance")
    else Status(Red, "Offline")
  }

  /** One status tick: the previous banner is overwritten outright. */
  function Step(s: Status, r: real): Status {
    FromDraw(r)
  }

  /** The banner after a run of status ticks, one draw each, oldest first. */
  function Run(draws: seq<real>): Status
    decreases |draws|
  {
    if |draws| == 0 then InitialStatus else Step(Run(draws[..|draws| - 1]), draws[|draws| - 1])
  }

  /** Colour and text always form one of the three pairs, so the text is a
      function of the colour; only the latest draw matters. */
  lemma AlwaysConsistent(draws: seq<real>)
    ensures Consistent(Run(draws))
    ensures var s := Run(draws);
            (s.color == Green ==> s.text == "Operational")
            && (s.color == Orange ==> s.text == "Under Maintenance")
            && (s.color == Red ==> s.text == "Offline")
    ensures 0 < |draws| ==> Run(draws) == FromDraw(draws[|draws| - 1])
  {
  }
}

=== FILE: routing.dfy ===
/** The application's route table and the authentication gate in front of
    the operator pages. */
module Routing {
  import Session
  import opened Wrappers

  datatype View = PublicDashboard | LoginPage | Dashboard | Simulation | Settings | Admin | NotFound

  /** One static route: its path, the page it shows, and whether it is nested
      under the authentication gate. */
  datatype Route = Route(path: string, view: View, gated: bool)

  /** What the router renders for a request. */
  datatype Screen = Spinner | Show(view: View) | Redirect(to: string)

  /** The static routes, in declaration order; anything else falls through to
      the catch-all `*` route, which shows `NotFound` ungated. */
  const Routes: seq<Route> := [
    Route("/", PublicDashboard, false),
    Route("/login", LoginPage, false),
    Route("/dashboard", Dashboard, true),
    Route("/simulation", Simulation, true),
    Route("/settings", Settings, true),
    Route("/admin", Admin, true)
  ]

  /** The paths nested under the authentication gate. */
  predicate Gated(path: string) {
    path == "/dashboard" || path == "/simulation" || path == "/settings" || path == "/admin"
  }

  /** The gate: a spinner while the session is loading, then the protected
      page when signed in, else a redirect to the login page. */
  function Gate(isLoading: bool, isAuthenticated: bool, child: View): (s: Screen)
    ensures isLoading ==> s == Spinner
    ensures !isLoading && isAuthenticated ==> s == Show(child)
    ensures !isLoading && !isAuthenticated ==> s == Redirect(Session.LoginPath)
  {
    if isLoading then Spinner
    else if isAuthenticated then Show(child)
    else Redirect(Session.LoginPath)
  }

  /** The first route whose path is exactly `path`, if any. */
  function Lookup(routes: seq<Route>, path: string): (r: Option<Route>)
    ensures r.Some? ==> r.value in routes && r.value.path == path
    ensures r.None? ==> forall i :: 0 <= i < |routes| ==> routes[i].path != path
    decreases |routes|
  {
    if |routes| == 0 then None
    else if routes[0].path == path then Some(routes[0])
    else Lookup(routes[1..], path)
  }

  /** Lookup in the application's table, route by route. */
  lemma LookupInTable(path: string)
    ensures Lookup(Routes, path) ==
      if path == "/" then Some(Routes[0])
      else if path == "/login" then Some(Routes[1])
      else if path == "/dashboard" then Some(Routes[2])
      else if path == "/simulation" then Some(Routes[3])
      else if path == "/settings" then Some(Routes[4])
      else if path == "/admin" then Some(Routes[5])
      else None
  {
    var t := Routes;
    assert t[1..][1..][1..][1..][1..][1..] == [];
    assert Lookup(t[1..][1..][1..][1..][1..], path) == if path == "/admin" then Some(Routes[5]) else None;
    assert Lookup(t[1..][1..][1..][1..], path) == if path == "/settings" then Some(Routes[4]) else Lookup(t[1..][1..][1..][1..][1..], path);
    assert Lookup(t[1..][1..][1..], path) == if path == "/simulation" then Some(Routes[3]) else Lookup(t[1..][1..][1..][1..], path);
    assert Lookup(t[1..][1..], path) == if path == "/dashboard" then Some(Routes[2]) else Lookup(t[1..][1..][1..], path);
    assert Lookup(t[1..], path) == if path == "/login" then Some(Routes[1]) else Lookup(t[1..][1..], path);
  }

  /** The screen for `path` given the session flags. */
  function Render(path: string, isLoading: bool, isAuthenticated: bool): (s: Screen)
    ensures path == "/" ==> s == Show(PublicDashboard)
    ensures path == "/login" ==> s == Show(LoginPage)
    ensures Gated(path) && isLoading ==> s == Spinner
    ensures Gated(path) && !isLoading && !isAuthenticated ==> s == Redirect("/login")
    ensures !Gated(path) ==> s.Show?
    ensures !Gated(path) && path != "/" && path != "/login" ==> s == Show(NotFound)
  {
    LookupInTable(path);
    match Lookup(Routes, path)
    case None => Show(NotFound)
    case Some(r) => if r.gated then Gate(isLoading, isAuthenticated, r.view) else Show(r.view)
  }

  /** Every route path is declared once, so a path selects at most one route. */
  lemma RoutePathsDistinct()
    ensures forall i, j :: 0 <= i < j < |Routes| ==> Routes[i].path != Routes[j].path
  {
  }

  /** A gated page is reached only through the gate: signed in and loaded,
      it shows exactly the page declared for its path. */
  lemma GatedPagesShownWhenSignedIn(path: string)
    requires Gated(path)
    ensures var s := Render(path, false, true);
            s.Show? && s.view in {Dashboard, Simulation, Settings, Admin}
    ensures Render("/dashboard", false, true) == Show(Dashboard)
    ensures Render("/simulation", false, true) == Show(Simulation)
    ensures Render("/settings", false, true) == Show(Settings)
    ensures Render("/admin", false, true) == Show(Admin)
  {
  }

  /** The gate produces exactly one of spinner, page and redirect, and the
      redirect target is itself an ungated page, so redirects never loop. */
  lemma GateExclusiveAndTerminating(isLoading: bool, isAuthenticated: bool, child: View, isLoading': bool, isAuthenticated': bool)
    ensures var s := Gate(isLoading, isAuthenticated, child);
            (s.Spinner? <==> isLoading)
            && (s.Show? <==> !isLoading && isAuthenticated)
            && (s.Redirect? <==> !isLoading && !isAuthenticated)
    ensures var s := Gate(isLoading, isAuthenticated, child);
            s.Redirect? ==> Render(s.to, isLoading', isAuthenticated') == Show(LoginPage)
  {
  }

  /** Once signed out by `logout()`, every gated page redirects to the login page. */
  lemma LogoutLocksGatedPages(ctx: Session.Context, path: string)
    requires Gated(path) && !ctx.state.isLoading
    ensures var c := Session.Logout(ctx).ctx;
            Render(path, c.state.isLoading, c.state.isAuthenticated) == Redirect(Session.LoginPath)
  {
  }
}

=== FILE: session.dfy ===
/** The authentication context: in-memory session state, the browser's
    key/value storage, and the three operations `checkAuth`, `login` and
    `logout`. The token and user codecs (base64 + JSON) are not modelled; they
    are passed in as partial functions. */
module Session {
  import opened Wrappers

  /** A user record; `id` and `name` are optional. */
  datatype User = User(id: Option<string>, email: string, name: Option<string>)

  /** The decoded token payload: its `exp` field in epoch seconds, absent when
      the payload has none. */
  datatype Claims = Claims(exp: Option<real>)

  /** The foreign decoders and encoder: `JSON.parse(atob(token))`,
      `JSON.parse(userData)` and `JSON.stringify(user)`. A decoder yields `None`
      where `JSON.parse` throws; a stored user that parses to JSON
      `null` decodes to `Some(None)`. */
  datatype Codec = Codec(
    decodeToken: string -> Option<Claims>,
    decodeUser: string -> Option<Option<User>>,
    encodeUser: User -> string)

  /** Browser local storage: string keys to string values. */
  type Storage = map<string, string>

  const TokenKey: string := "authToken"
  const UserKey: string := "user"
  const LoginPath: string := "/login"

  datatype AuthState = AuthState(isAuthenticated: bool, user: Option<User>, isLoading: bool)

  /** The session together with the storage it is persisted in. */
  datatype Context = Context(state: AuthState, storage: Storage)

  /** Side effects `logout` performs beyond state changes. */
  datatype Effect = Navigate(path: string)

  datatype CheckOutcome = CheckOutcome(ok: bool, ctx: Context)

  datatype LogoutOutcome = LogoutOutcome(ctx: Context, effects: seq<Effect>)

  /** The state before the mount effect has run: signed out, no user, loading. */
  const Initial: AuthState := AuthState(false, None, true)

  /** The session invariant: a user is held only while authenticated. (The
      converse can fail: a stored user of `null` restores an authenticated
      session without a user.) */
  predicate Consistent(s: AuthState) {
    s.user.Some? ==> s.isAuthenticated
  }

  /** `localStorage.getItem(key)`, with `None` for JavaScript's `null`. */
  function GetItem(st: Storage, key: string): (r: Option<string>)
    ensures r.Some? <==> key in st
    ensures r.Some? ==> r.value == st[key]
  {
    if key in st then Some(st[key]) else None
  }

  /** JavaScript truthiness of a stored string: present and non-empty. */
  predicate Truthy(v: Option<string>) {
    v.Some? && v.value != ""
  }

  /** `tokenData.exp && tokenData.exp > Math.floor(now / 1000)`, with `now`
      in epoch milliseconds. */
  predicate Unexpired(c: Claims, now: int) {
    c.exp.Some? && c.exp.value != 0.0 && c.exp.value > (now / 1000) as real
  }

  /** Reference definition of a session the storage would restore at time
      `now`, stated directly on the storage map. */
  ghost predicate Restorable(codec: Codec, st: Storage, now: int) {
    && TokenKey in st && st[TokenKey] != ""
    && UserKey in st && st[UserKey] != ""
    && codec.decodeToken(st[TokenKey]).Some?
    && Unexpired(codec.decodeToken(st[TokenKey]).value, now)
    && codec.decodeUser(st[UserKey]).Some?
  }

  /** `checkAuth()` at clock time `now` (milliseconds). It fails closed: any
      missing key, decode error or absent/expired `exp` signs the session out.
      It never writes storage, and leaves the loading flag alone. */
  function CheckAuth(codec: Codec, ctx: Context, now: int): (r: CheckOutcome)
    ensures r.ok <==> Restorable(codec, ctx.storage, now)
    ensures r.ok ==> r.ctx.state.isAuthenticated
                     && r.ctx.state.user == codec.decodeUser(ctx.storage[UserKey]).value
    ensures !r.ok ==> !r.ctx.state.isAuthenticated && r.ctx.state.user == None
    ensures r.ctx.state.isLoading == ctx.state.isLoading
    ensures r.ctx.storage == ctx.storage
    ensures Consistent(r.ctx.state)
  {
    var token := GetItem(ctx.storage, TokenKey);
    var userData := GetItem(ctx.storage, UserKey);
    var failed := CheckOutcome(false, ctx.(state := ctx.state.(isAuthenticated := false, user := None)));
    if Truthy(token) && Truthy(userData) then
      match codec.decodeToken(token.value)
      case None => failed
      case Some(claims) =>
        if Unexpired(claims, now) then
          match codec.decodeUser(userData.value)
          case None => failed
          case Some(parsed) =>
            CheckOutcome(true, ctx.(state := ctx.state.(isAuthenticated := true, user := parsed)))
        else failed
    else failed
  }

  /** The mount effect: run `checkAuth()` once, then clear the loading flag. */
  function Mount(codec: Codec, st: Storage, now: int): (ctx: Context)
    ensures !ctx.state.isLoading
    ensures ctx.storage == st
    ensures ctx.state.isAuthenticated <==> Restorable(codec, st, now)
    ensures ctx.state.user ==
              if Restorable(codec, st, now) then codec.decodeUser(st[UserKey]).value else None
    ensures Consistent(ctx.state)
  {
    var checked := CheckAuth(codec, Context(Initial, st), now);
    checked.ctx.(state := checked.ctx.state.(isLoading := false))
  }

  /** `login(token, user)`: persist both, then sign in with exactly `u`. The
      token is stored as given and is not validated. */
  function Login(codec: Codec, ctx: Context, token: string, u: User): (r: Context)
    ensures r.state.isAuthenticated && r.state.user == Some(u)
    ensures r.state.isLoading == ctx.state.isLoading
    ensures r.storage.Keys == ctx.storage.Keys + {TokenKey, UserKey}
    ensures r.storage[TokenKey] == token && r.storage[UserKey] == codec.encodeUser(u)
    ensures forall k :: k in ctx.storage && k != TokenKey && k != UserKey ==> r.storage[k] == ctx.storage[k]
    ensures Consistent(r.state)
  {
    var st := ctx.storage[TokenKey := token][UserKey := codec.encodeUser(u)];
    Context(ctx.state.(isAuthenticated := true, user := Some(u)), st)
  }

  /** `logout()`: remove the two session keys, sign out, and navigate to the
      login page. */
  function Logout(ctx: Context): (r: LogoutOutcome)
    ensures r.ctx.storage.Keys == ctx.storage.Keys - {TokenKey, UserKey}
    ensures forall k :: k in r.ctx.storage ==> r.ctx.storage[k] == ctx.storage[k]
    ensures !r.ctx.state.isAuthenticated && r.ctx.state.user == None
    ensures r.ctx.state.isLoading == ctx.state.isLoading
    ensures r.effects == [Navigate(LoginPath)]
    ensures Consistent(r.ctx.state)
  {
    var st := ctx.storage - {TokenKey, UserKey};
    LogoutOutcome(Context(ctx.state.(isAuthenticated := false, user := None), st), [Navigate(LoginPath)])
  }

  /** A session can be restored only when both keys are present and non-empty. */
  lemma CheckAuthNeedsBothKeys(codec: Codec, ctx: Context, now: int)
    requires CheckAuth(codec, ctx, now).ok
    ensures TokenKey in ctx.storage && ctx.storage[TokenKey] != ""
    ensures UserKey in ctx.storage && ctx.storage[UserKey] != ""
  {
  }

  /** A token whose `exp` is at or before the current second never restores
      a session, and checking it removes nothing from storage. */
  lemma ExpiredTokenRejected(codec: Codec, ctx: Context, now: int)
    requires TokenKey in ctx.storage
    requires codec.decodeToken(ctx.storage[TokenKey]).Some?
    requires var c := codec.decodeToken(ctx.storage[TokenKey]).value;
             c.exp.Some? && c.exp.value <= (now / 1000) as real
    ensures !CheckAuth(codec, ctx, now).ok
    ensures CheckAuth(codec, ctx, now).ctx.storage == ctx.storage
    ensures TokenKey in CheckAuth(codec, ctx, now).ctx.storage
  {
  }

  /** After `logout()`, `checkAuth()` fails at every time, whatever the codec. */
  lemma LogoutThenCheckAuthFails(codec: Codec, ctx: Context, now: int)
    ensures !CheckAuth(codec, Logout(ctx).ctx, now).ok
    ensures !CheckAuth(codec, Logout(ctx).ctx, now).ctx.state.isAuthenticated
  {
    assert TokenKey !in Logout(ctx).ctx.storage;
  }

  /** `login` does not validate: `checkAuth()` right after it succeeds exactly
      when the stored token is non-empty and decodes to an unexpired `exp`,
      given a user encoding that reads back and is non-empty. */
  lemma LoginThenCheckAuth(codec: Codec, ctx: Context, token: string, u: User, now: int)
    requires codec.decodeUser(codec.encodeUser(u)) == Some(Some(u))
    requires codec.encodeUser(u) != ""
    ensures var r := CheckAuth(codec, Login(codec, ctx, token, u), now);
            r.ok <==> (token != "" && codec.decodeToken(token).Some?
                       && Unexpired(codec.decodeToken(token).value, now))
    ensures var r := CheckAuth(codec, Login(codec, ctx, token, u), now);
            r.ok ==> r.ctx.state.user == Some(u)
  {
  }

  /** A stored user of JSON `null` next to a live token restores a session
      that is authenticated but holds no user. */
  lemma NullUserStillAuthenticates(codec: Codec, ctx: Context, now: int)
    requires TokenKey in ctx.storage && ctx.storage[TokenKey] != ""
    requires UserKey in ctx.storage && ctx.storage[UserKey] != ""
    requires codec.decodeToken(ctx.storage[TokenKey]).Some?
    requires Unexpired(codec.decodeToken(ctx.storage[TokenKey]).value, now)
    requires codec.decodeUser(ctx.storage[UserKey]) == Some(None)
    ensures var r := CheckAuth(codec, ctx, now);
            r.ok && r.ctx.state.isAuthenticated && r.ctx.state.user == None
  {
  }

  /** The events that change the session after mount. */
  datatype Event = CheckAuthAt(now: int) | LoginWith(token: string, u: User) | LogoutNow

  function Step(codec: Codec, ctx: Context, e: Event): Context {
    match e
    case CheckAuthAt(now) => CheckAuth(codec, ctx, now).ctx
    case LoginWith(token, u) => Login(codec, ctx, token, u)
    case LogoutNow => Logout(ctx).ctx
  }

  function Run(codec: Codec, ctx: Context, es: seq<Event>): Context
    decreases |es|
  {
    if |es| == 0 then ctx else Step(codec, Run(codec, ctx, es[..|es| - 1]), es[|es| - 1])
  }

  /** Starting from the mounted state, every sequence of operations keeps the
      session consistent and never sets the loading flag again. */
  lemma {:induction false} RunPreservesConsistency(codec: Codec, st: Storage, now: int, es: seq<Event>)
    ensures Consistent(Run(codec, Mount(codec, st, now), es).state)
    ensures !Run(codec, Mount(codec, st, now), es).state.isLoading
    decreases |es|
  {
    if |es| > 0 {
      RunPreservesConsistency(codec, st, now, es[..|es| - 1]);
    }
  }
}

=== FILE: settings.dfy ===
/** The settings page's local state: edits to the three alert thresholds,
    reset to defaults, a delayed save that hands the edited thresholds to the
    context, the theme switch, and the colour bands and slider ranges. The
    context's thresholds, `updateThresholds` and `setTheme` belong to a store
    that is not part of this model; they appear here as inputs and as the
    values handed to them. */
module SettingsPage {
  import opened Wrappers

  datatype Thresholds = Thresholds(pressure: real, temperature: real, flowRate: real)

  datatype ThresholdField = Pressure | Temperature | FlowRate

  function Get(t: Thresholds, f: ThresholdField): real {
    match f
    case Pressure => t.pressure
    case Temperature => t.temperature
    case FlowRate => t.flowRate
  }

  const Defaults: Thresholds := Thresholds(200.0, 80.0, 300.0)

  /** The page's state: the edited thresholds, the saving flag, and the
      thresholds captured by a save whose timer has not fired yet. */
  datatype SettingsState = SettingsState(local: Thresholds, isSaving: bool, pendingSave: Option<Thresholds>)

  /** The page as first rendered: a copy of the context thresholds, not saving. */
  function Init(context: Thresholds): (s: SettingsState)
    ensures s.local == context && !s.isSaving && s.pendingSave == None
  {
    SettingsState(context, false, None)
  }

  /** The synchronising effect: whenever the context thresholds change, the
      local copy is replaced by them. */
  function SyncFromContext(s: SettingsState, context: Thresholds): (r: SettingsState)
    ensures r.local == context
    ensures r.isSaving == s.isSaving && r.pendingSave == s.pendingSave
  {
    s.(local := context)
  }

  /** `handleThresholdChange(value, field)`: the slider's first value replaces
      the named field alone. */
  function ChangeThreshold(s: SettingsState, value: seq<real>, f: ThresholdField): (r: SettingsState)
    requires 0 < |value|
    ensures Get(r.local, f) == value[0]
    ensures forall g :: g != f ==> Get(r.local, g) == Get(s.local, g)
    ensures r.isSaving == s.isSaving && r.pendingSave == s.pendingSave
  {
    var t := s.local;
    var t' := match f
      case Pressure => t.(pressure := value[0])
      case Temperature => t.(temperature := value[0])
      case FlowRate => t.(flowRate := value[0]);
    s.(local := t')
  }

  /** `handleReset()`: back to 200 PSI, 80 °C and 300 L/min. */
  function Reset(s: SettingsState): (r: SettingsState)
    ensures r.local.pressure == 200.0 && r.local.temperature == 80.0 && r.local.flowRate == 300.0
    ensures r.isSaving == s.isSaving && r.pendingSave == s.pendingSave
  {
    s.(local := Defaults)
  }

  /** `handleSave()`: mark the page as saving and start the timer, capturing
      the thresholds as they are now. The button is disabled while saving, so
      a click then does nothing. */
  function Save(s: SettingsState): (r: SettingsState)
    ensures !s.isSaving ==> r.isSaving && r.pendingSave == Some(s.local) && r.local == s.local
    ensures s.isSaving ==> r == s
  {
    if s.isSaving then s else s.(isSaving := true, pendingSave := Some(s.local))
  }

  datatype SaveOutcome = SaveOutcome(state: SettingsState, updateThresholds: Option<Thresholds>)

  /** The save timer firing: `updateThresholds` receives the captured
      thresholds unchanged, and the page stops saving. */
  function SaveTimerFires(s: SettingsState): (r: SaveOutcome)
    ensures r.updateThresholds == s.pendingSave
    ensures s.pendingSave.Some? ==> !r.state.isSaving && r.state.pendingSave == None
    ensures r.state.local == s.local
  {
    match s.pendingSave
    case None => SaveOutcome(s, None)
    case Some(t) => SaveOutcome(s.(isSaving := false, pendingSave := None), Some(t))
  }

  /** Clicking save and letting the timer fire hands `updateThresholds`
      exactly the thresholds on screen at the click, also when one slider
      moves while the timer runs. */
  lemma SaveSendsLocal(s: SettingsState, value: seq<real>, f: ThresholdField)
    requires !s.isSaving && 0 < |value|
    ensures SaveTimerFires(Save(s)).updateThresholds == Some(s.local)
    ensures SaveTimerFires(ChangeThreshold(Save(s), value, f)).updateThresholds == Some(s.local)
    ensures !SaveTimerFires(Save(s)).state.isSaving
  {
  }

  /** What can happen on the page while a save timer runs: a slider move, the
      reset button, a change of the context thresholds, or a click on the
      (disabled) save button. */
  datatype Edit = Slide(value: real, f: ThresholdField) | ResetLocal | Sync(context: Thresholds) | Click

  function Apply(s: SettingsState, e: Edit): SettingsState {
    match e
    case Slide(v, f) => ChangeThreshold(s, [v], f)
    case ResetLocal => Reset(s)
    case Sync(context) => SyncFromContext(s, context)
    case Click => Save(s)
  }

  /** The edits applied oldest first. */
  function ApplyAll(s: SettingsState, es: seq<Edit>): SettingsState
    decreases |es|
  {
    if |es| == 0 then s else Apply(ApplyAll(s, es[..|es| - 1]), es[|es| - 1])
  }

  /** While saving, no edit touches the saving flag or the captured thresholds. */
  lemma {:induction false} PendingSurvives(s: SettingsState, es: seq<Edit>)
    requires s.isSaving
    ensures ApplyAll(s, es).isSaving && ApplyAll(s, es).pendingSave == s.pendingSave
    decreases |es|
  {
    if |es| > 0 {
      PendingSurvives(s, es[..|es| - 1]);
    }
  }

  /** The timer hands `updateThresholds` the thresholds on screen at the
      click, whatever slider moves, resets, context changes and further clicks
      happen before it fires. */
  lemma SaveSendsLocalAcrossEdits(s: SettingsState, es: seq<Edit>)
    requires !s.isSaving
    ensures SaveTimerFires(ApplyAll(Save(s), es)).updateThresholds == Some(s.local)
    ensures !SaveTimerFires(ApplyAll(Save(s), es)).state.isSaving
  {
    PendingSurvives(Save(s), es);
  }

  /** The last reset or context change before the timer fires decides what
      the page shows afterwards; the payload is still the click's. */
  lemma EditsAfterClickShowOnScreen(s: SettingsState, es: seq<Edit>, context: Thresholds)
    requires !s.isSaving
    ensures SaveTimerFires(ApplyAll(Save(s), es + [Sync(context)])).state.local == context
    ensures SaveTimerFires(ApplyAll(Save(s), es + [ResetLocal])).state.local == Defaults
  {
    assert (es + [Sync(context)])[..|es|] == es;
    assert (es + [ResetLocal])[..|es|] == es;
  }

  // ---- theme switch ----

  /** `handleThemeToggle(checked)`: the theme handed to `setTheme`. */
  function ThemeFor(checked: bool): (theme: string)
    ensures theme == "dark" || theme == "light"
    ensures checked <==> theme == "dark"
  {
    if checked then "dark" else "light"
  }

  /** The switch position shown for the context's theme. */
  function SwitchChecked(theme: string): (checked: bool)
    ensures checked <==> theme == ThemeFor(true)
  {
    theme == "dark"
  }

  /** Toggling and re-reading the switch agree in both directions: the switch
      shows what was chosen, and re-choosing what the switch shows gives back
      either recognised theme. */
  lemma ThemeSwitchRoundTrip(checked: bool, theme: string)
    ensures SwitchChecked(ThemeFor(checked)) == checked
    ensures ThemeFor(SwitchChecked(theme)) == theme <==> theme == "dark" || theme == "light"
  {
  }

  // ---- colour bands and sliders ----

  datatype Band = Green | Orange | Red

  /** Red above `red`, orange above `orange`, green otherwise. */
  function BandOf(v: real, red: real, orange: real): (b: Band)
    requires orange <= red
    ensures b == Red <==> v > red
    ensures b == Orange <==> orange < v <= red
    ensures b == Green <==> v <= orange
  {
    if v > red then Red else if v > orange then Orange else Green
  }

  /** The band of each field's displayed value: pressure cuts at 220 and
      180, temperature at 85 and 70, flow rate at 320 and 280. */
  function FieldBand(t: Thresholds, f: ThresholdField): (b: Band)
    ensures f == Pressure ==> (b == Red <==> t.pressure > 220.0) && (b == Green <==> t.pressure <= 180.0)
    ensures f == Temperature ==> (b == Red <==> t.temperature > 85.0) && (b == Green <==> t.temperature <= 70.0)
    ensures f == FlowRate ==> (b == Red <==> t.flowRate > 320.0) && (b == Green <==> t.flowRate <= 280.0)
  {
    match f
    case Pressure => BandOf(t.pressure, 220.0, 180.0)
    case Temperature => BandOf(t.temperature, 85.0, 70.0)
    case FlowRate => BandOf(t.flowRate, 320.0, 280.0)
  }

  /** The display class of each band. */
  function BandClass(b: Band): string {
    match b
    case Red => "text-red-500"
    case Orange => "text-neon-orange"
    case Green => "text-neon-green"
  }

  /** The class of each value's read-out, written field by field as the page
      writes it. */
  function ValueClass(t: Thresholds, f: ThresholdField): string {
    match f
    case Pressure =>
      if t.pressure > 220.0 then "text-red-500" else if t.pressure > 180.0 then "text-neon-orange" else "text-neon-green"
    case Temperature =>
      if t.temperature > 85.0 then "text-red-500" else if t.temperature > 70.0 then "text-neon-orange" else "text-neon-green"
    case FlowRate =>
      if t.flowRate > 320.0 then "text-red-500" else if t.flowRate > 280.0 then "text-neon-orange" else "text-neon-green"
  }

  /** Each read-out is coloured by its band, and the colour alone tells the
      band. */
  lemma ValueClassFollowsBand(t: Thresholds, f: ThresholdField)
    ensures ValueClass(t, f) == BandClass(FieldBand(t, f))
    ensures forall b: Band :: BandClass(b) == ValueClass(t, f) ==> b == FieldBand(t, f)
  {
  }

  datatype Slider = Slider(min: int, max: int, step: int)

  /** The range and step of each field's slider. */
  function SliderFor(f: ThresholdField): (sl: Slider)
    ensures 0 < sl.step && sl.min < sl.max && (sl.max - sl.min) % sl.step == 0
    ensures f == Pressure ==> sl == Slider(100, 300, 5)
    ensures f == Temperature ==> sl == Slider(50, 100, 1)
    ensures f == FlowRate ==> sl == Slider(150, 350, 5)
  {
    match f
    case Pressure => Slider(100, 300, 5)
    case Temperature => Slider(50, 100, 1)
    case FlowRate => Slider(150, 350, 5)
  }

  /** A value the slider can show: within its range and on its step grid. */
  predicate OnSlider(v: real, sl: Slider) {
    && sl.min as real <= v <= sl.max as real
    && v.Floor as real == v
    && sl.step > 0 && (v.Floor - sl.min) % sl.step == 0
  }

  /** The defaults are positions every slider can take, and each sits in the
      orange band. */
  lemma DefaultsOnSliders(f: ThresholdField)
    ensures OnSlider(Get(Defaults, f), SliderFor(f))
    ensures FieldBand(Defaults, f) == Orange
  {
    assert (200.0).Floor == 200 && (80.0).Floor == 80 && (300.0).Floor == 300;
  }

  /** Each slider reaches every band: moved to its lowest position the
      read-out is green, moved to its highest it is red. */
  lemma SliderSpansBands(f: ThresholdField)
    ensures var sl := SliderFor(f);
            && OnSlider(sl.min as real, sl) && FieldBand(ChangeThreshold(Init(Defaults), [sl.min as real], f).local, f) == Green
            && OnSlider(sl.max as real, sl) && FieldBand(ChangeThreshold(Init(Defaults), [sl.max as real], f).local, f) == Red
  {
    var sl := SliderFor(f);
    assert (sl.min as real).Floor == sl.min && (sl.max as real).Floor == sl.max;
  }

  /** Raising a value never lowers its band. */
  lemma BandMonotone(f: ThresholdField, a: Thresholds, b: Thresholds)
    requires Get(a, f) <= Get(b, f)
    ensures var ra, rb := FieldBand(a, f), FieldBand(b, f);
            (ra == Red ==> rb == Red) && (ra == Orange ==> rb != Green)
  {
  }
}

=== FILE: simulation.dfy ===
/** The population-load simulator: a once-a-second tick that advances the
    clock, recomputes the system load, and appends one sample to each of two
    20-entry series; the start/pause toggle, the reset, the population slider,
    and the load and infrastructure bands. `Math.sin(time / 10) * 3` and the
    two `Math.random()` draws are parameters of the tick. */
module SimulationPage {
  import opened Window
  import opened Decimal

  /** A chart sample: its label (`"<seconds>s"`) and value. */
  datatype Sample = Sample(name: string, value: real)

  datatype SimState = SimState(
    running: bool, population: real, time: nat, load: real,
    resource: seq<Sample>, performance: seq<Sample>)

  const SeriesCap: nat := 20

  /** The page as first rendered: paused, population 5 billion, nothing yet. */
  const Initial: SimState := SimState(false, 5.0, 0, 0.0, [], [])

  /** `Math.min(Math.max(x, 0), 100)`. */
  function Clamp(x: real): (r: real)
    ensures 0.0 <= r <= 100.0
    ensures 0.0 <= x <= 100.0 ==> r == x
    ensures x < 0.0 ==> r == 0.0
    ensures x > 100.0 ==> r == 100.0
  {
    var lo := if x > 0.0 then x else 0.0;
    if lo < 100.0 then lo else 100.0
  }

  /** The label of the sample taken at `time` seconds. */
  function Label(time: nat): string {
    NatToString(time) + "s"
  }

  /** A label is the decimal seconds followed by `s`, and the seconds read
      back from it. */
  lemma LabelReadsBack(time: nat)
    ensures var l := Label(time);
            2 <= |l| && l[|l| - 1] == 's' &&
            AllDigits(l[..|l| - 1]) && ParseNat(l[..|l| - 1]) == time
  {
    var l := Label(time);
    assert l[..|l| - 1] == NatToString(time);
    ParseNatToString(time);
  }

  /** Samples taken at different times carry different labels. */
  lemma LabelInjective(a: nat, b: nat)
    requires Label(a) == Label(b)
    ensures a == b
  {
    assert NatToString(a) == Label(a)[..|Label(a)| - 1];
    assert NatToString(b) == Label(b)[..|Label(b)| - 1];
    NatToStringInjective(a, b);
  }

  /** `Math.max(x, 70)`. */
  function Efficiency(population: real, r: real): (e: real)
    ensures e >= 70.0
    ensures 95.0 - (population / 20.0) * 10.0 + (r * 2.0 - 1.0) >= 70.0 ==>
              e == 95.0 - (population / 20.0) * 10.0 + (r * 2.0 - 1.0)
    ensures 95.0 - (population / 20.0) * 10.0 + (r * 2.0 - 1.0) <= 70.0 ==> e == 70.0
  {
    var raw := 95.0 - (population / 20.0) * 10.0 + (r * 2.0 - 1.0);
    if raw > 70.0 then raw else 70.0
  }

  /** One interval tick while running. The samples are labelled with the
      time before the increment; a paused simulation has no timer, so a tick
      then changes nothing. */
  function Tick(s: SimState, variance: real, r1: real, r2: real): (t: SimState)
    ensures !s.running ==> t == s
    ensures s.running ==> t.time == s.time + 1
    ensures s.running ==> t.load == Clamp(s.population * 5.0 + variance)
    ensures s.running ==> 0.0 <= t.load <= 100.0
    ensures s.running && 0.0 <= s.population * 5.0 + variance <= 100.0 ==>
              t.load == s.population * 5.0 + variance
    ensures s.running ==> t.running && t.population == s.population
    ensures s.running ==> t.resource == ShiftPush(s.resource, Sample(Label(s.time), s.population * 10.0 + (r1 * 5.0 - 2.5)), SeriesCap)
    ensures s.running ==> t.performance == ShiftPush(s.performance, Sample(Label(s.time), Efficiency(s.population, r2)), SeriesCap)
    ensures s.running ==> 0 < |t.performance| && t.performance[|t.performance| - 1].value >= 70.0
    ensures s.running ==> t.performance[|t.performance| - 1].name == Label(s.time)
    ensures s.running && |s.performance| <= SeriesCap ==> |t.performance| == Min(|s.performance| + 1, SeriesCap)
  {
    if !s.running then s
    else
      var load := Clamp(s.population * 5.0 + variance);
      var consumption := Sample(Label(s.time), s.population * 10.0 + (r1 * 5.0 - 2.5));
      var efficiency := Sample(Label(s.time), Efficiency(s.population, r2));
      s.(time := s.time + 1, load := load,
         resource := ShiftPush(s.resource, consumption, SeriesCap),
         performance := ShiftPush(s.performance, efficiency, SeriesCap))
  }

  /** `toggleSimulation()`: flips running and nothing else. */
  function Toggle(s: SimState): (t: SimState)
    ensures t.running == !s.running
    ensures t.(running := s.running) == s
  {
    s.(running := !s.running)
  }

  /** `resetSimulation()`: paused, time and load zero, both series empty;
      the population is kept. */
  function Reset(s: SimState): (t: SimState)
    ensures !t.running && t.time == 0 && t.load == 0.0
    ensures t.resource == [] && t.performance == []
    ensures t.population == s.population
  {
    s.(running := false, time := 0, load := 0.0, resource := [], performance := [])
  }

  /** `handlePopulationChange(value)`: the slider's first value. */
  function SetPopulation(s: SimState, value: seq<real>): (t: SimState)
    requires 0 < |value|
    ensures t.population == value[0]
    ensures t.(population := s.population) == s
  {
    s.(population := value[0])
  }

  /** A series whose entries are labelled with the consecutive seconds
      just before `time`, the newest last. */
  ghost predicate LabelledUpTo(xs: seq<Sample>, time: nat) {
    |xs| <= time && forall i :: 0 <= i < |xs| ==> xs[i].name == Label(time - |xs| + i)
  }

  /** The series invariant: the two series have equal length, at most 20
      entries, and both are labelled with the seconds just before the current
      time, so their labels agree entry by entry. */
  ghost predicate Aligned(s: SimState) {
    && |s.resource| == |s.performance| <= SeriesCap
    && LabelledUpTo(s.resource, s.time)
    && LabelledUpTo(s.performance, s.time)
  }

  /** One push keeps a series labelled with consecutive seconds. The body
      splits the two cases of the push so the proof stays cheap. */
  lemma {:induction false} PushKeepsLabels(xs: seq<Sample>, time: nat, v: real)
    requires LabelledUpTo(xs, time) && |xs| <= SeriesCap
    ensures LabelledUpTo(ShiftPush(xs, Sample(Label(time), v), SeriesCap), time + 1)
  {
    var kept := if |xs| == SeriesCap then xs[1..] else xs;
    if |xs| == SeriesCap {
      DropOldestKeepsLabels(xs, time);
    }
    assert ShiftPush(xs, Sample(Label(time), v), SeriesCap) == kept + [Sample(Label(time), v)];
    AppendKeepsLabels(kept, time, Sample(Label(time), v));
  }

  /** Dropping the oldest sample keeps the rest labelled. */
  lemma DropOldestKeepsLabels(xs: seq<Sample>, time: nat)
    requires LabelledUpTo(xs, time) && 0 < |xs|
    ensures LabelledUpTo(xs[1..], time)
  {
    forall i | 0 <= i < |xs[1..]|
      ensures xs[1..][i].name == Label(time - |xs[1..]| + i)
    {
      assert xs[1..][i] == xs[i + 1];
    }
  }

  /** Appending the sample for second `time` extends the labelling by one second. */
  lemma AppendKeepsLabels(xs: seq<Sample>, time: nat, x: Sample)
    requires LabelledUpTo(xs, time) && x.name == Label(time)
    ensures LabelledUpTo(xs + [x], time + 1)
  {
    var ys := xs + [x];
    forall i | 0 <= i < |ys|
      ensures ys[i].name == Label(time + 1 - |ys| + i)
    {
      if i < |xs| {
        assert ys[i] == xs[i];
      }
    }
  }

  /** A state one second on whose series each gained a sample for the
      previous second is aligned when the earlier state was. */
  lemma AlignedAfterPush(s: SimState, t: SimState, c: real, e: real)
    requires Aligned(s) && t.time == s.time + 1
    requires t.resource == ShiftPush(s.resource, Sample(Label(s.time), c), SeriesCap)
    requires t.performance == ShiftPush(s.performance, Sample(Label(s.time), e), SeriesCap)
    ensures Aligned(t)
  {
    assert |t.resource| == |t.performance| == Min(|s.resource| + 1, SeriesCap);
    PushKeepsLabels(s.resource, s.time, c);
    PushKeepsLabels(s.performance, s.time, e);
  }

  lemma TickAligned(s: SimState, variance: real, r1: real, r2: real)
    requires Aligned(s)
    ensures Aligned(Tick(s, variance, r1, r2))
  {
    if s.running {
      AlignedAfterPush(s, Tick(s, variance, r1, r2),
        s.population * 10.0 + (r1 * 5.0 - 2.5), Efficiency(s.population, r2));
    }
  }

  /** In an aligned state the two series carry the same label at each position. */
  lemma AlignedLabelsAgree(s: SimState, i: int)
    requires Aligned(s) && 0 <= i < |s.resource|
    ensures s.resource[i].name == s.performance[i].name
  {
  }

  /** The page's events: one timer tick with its inputs, the buttons, and
      the population slider. */
  datatype Event = TickWith(variance: real, r1: real, r2: real) | ToggleRun | ResetAll | Population(value: real)

  function Step(s: SimState, e: Event): SimState {
    match e
    case TickWith(v, r1, r2) => Tick(s, v, r1, r2)
    case ToggleRun => Toggle(s)
    case ResetAll => Reset(s)
    case Population(v) => SetPopulation(s, [v])
  }

  function Run(s: SimState, es: seq<Event>): SimState
    decreases |es|
  {
    if |es| == 0 then s else Step(Run(s, es[..|es| - 1]), es[|es| - 1])
  }

  /** From the initial page, every sequence of events keeps both series
      bounded by 20, equally long, and labelled with consecutive seconds. */
  lemma {:induction false} RunAligned(es: seq<Event>)
    ensures Aligned(Run(Initial, es))
    ensures |Run(Initial, es).resource| <= SeriesCap
    decreases |es|
  {
    if |es| > 0 {
      var s := Run(Initial, es[..|es| - 1]);
      RunAligned(es[..|es| - 1]);
      match es[|es| - 1]
      case TickWith(v, r1, r2) => TickAligned(s, v, r1, r2);
      case ToggleRun =>
      case ResetAll =>
      case Population(v) =>
    }
  }

  /** While running, each series agrees with the sensor-monitor style of
      window (append, keep the last 20). */
  lemma TickSeriesAreWindows(s: SimState, variance: real, r1: real, r2: real)
    requires s.running && |s.resource| <= SeriesCap && |s.performance| <= SeriesCap
    ensures Tick(s, variance, r1, r2).resource
            == AppendTrim(s.resource, Sample(Label(s.time), s.population * 10.0 + (r1 * 5.0 - 2.5)), SeriesCap)
    ensures Tick(s, variance, r1, r2).performance
            == AppendTrim(s.performance, Sample(Label(s.time), Efficiency(s.population, r2)), SeriesCap)
  {
    ShiftPushIsAppendTrim(s.resource, Sample(Label(s.time), s.population * 10.0 + (r1 * 5.0 - 2.5)), SeriesCap);
    ShiftPushIsAppendTrim(s.performance, Sample(Label(s.time), Efficiency(s.population, r2)), SeriesCap);
  }

  // ---- bands ----

  datatype LoadBand = LoadNormal | LoadElevated | LoadCritical

  function BandOfLoad(load: real): (b: LoadBand)
    ensures b == LoadNormal <==> load < 50.0
    ensures b == LoadElevated <==> 50.0 <= load < 80.0
    ensures b == LoadCritical <==> load >= 80.0
  {
    if load < 50.0 then LoadNormal else if load < 80.0 then LoadElevated else LoadCritical
  }

  datatype LoadStatus = LoadStatus(color: string, message: string)

  /** `getLoadStatus()`: the text colour and message for the current load. */
  function GetLoadStatus(load: real): (st: LoadStatus)
    ensures st.message == "System load normal" <==> load < 50.0
    ensures st.message == "System load elevated" <==> 50.0 <= load < 80.0
    ensures st.message == "System load critical" <==> load >= 80.0
    ensures load < 50.0 ==> st.color == "text-neon-green"
    ensures 50.0 <= load < 80.0 ==> st.color == "text-neon-orange"
    ensures load >= 80.0 ==> st.color == "text-red-500"
  {
    if load < 50.0 then LoadStatus("text-neon-green", "System load normal")
    else if load < 80.0 then LoadStatus("text-neon-orange", "System load elevated")
    else LoadStatus("text-red-500", "System load critical")
  }

  /** The load gauge's bar class, written separately in the page. */
  function GaugeBarClass(load: real): (c: string)
    ensures c == "bg-neon-green" <==> load < 50.0
    ensures c == "bg-neon-orange" <==> 50.0 <= load < 80.0
    ensures c == "bg-red-500" <==> load >= 80.0
  {
    if load < 50.0 then "bg-neon-green" else if load < 80.0 then "bg-neon-orange" else "bg-red-500"
  }

  /** The status line, the bar, and the three load bands agree for every load. */
  lemma LoadIndicatorsAgree(load: real)
    ensures var st, bar := GetLoadStatus(load), GaugeBarClass(load);
            match BandOfLoad(load)
            case LoadNormal => st.message == "System load normal" && st.color == "text-neon-green" && bar == "bg-neon-green"
            case LoadElevated => st.message == "System load elevated" && st.color == "text-neon-orange" && bar == "bg-neon-orange"
            case LoadCritical => st.message == "System load critical" && st.color == "text-red-500" && bar == "bg-red-500"
  {
  }

  /** The infrastructure scaling capacity line. */
  function InfraCapacity(population: real): (c: string)
    ensures c == "CRITICAL" <==> population > 18.0
    ensures c == "WARNING" <==> 12.0 < population <= 18.0
    ensures c == "NORMAL" <==> population <= 12.0
  {
    if population > 18.0 then "CRITICAL" else if population > 12.0 then "WARNING" else "NORMAL"
  }

  /** The capacity lines in increasing order of concern. */
  function CapacityLevel(c: string): nat {
    if c == "CRITICAL" then 2 else if c == "WARNING" then 1 else 0
  }

  /** A larger population never shows a lower capacity line. */
  lemma InfraCapacityMonotone(a: real, b: real)
    requires a <= b
    ensures CapacityLevel(InfraCapacity(a)) <= CapacityLevel(InfraCapacity(b))
  {
  }
}

=== FILE: visualization.dfy ===
/** The colour classification of a pipeline section in the 3D view, and the
    per-sensor critical flags shown beside it. */
module Visualization {

  datatype Metrics = Metrics(pressure: real, temperature: real, flowRate: real)

  datatype Severity = Normal | Warning | Critical

  /** The severities in increasing order. */
  function Rank(s: Severity): nat {
    match s
    case Normal => 0
    case Warning => 1
    case Critical => 2
  }

  /** `getColor()`: critical above 200 pressure or 80 temperature, warning
      above 150 pressure or 70 temperature, normal otherwise. */
  function SectionSeverity(m: Metrics): (s: Severity)
    ensures s == Critical <==> m.pressure > 200.0 || m.temperature > 80.0
    ensures s == Warning <==> !(m.pressure > 200.0 || m.temperature > 80.0)
                              && (m.pressure > 150.0 || m.temperature > 70.0)
    ensures s == Normal <==> m.pressure <= 150.0 && m.temperature <= 70.0
  {
    if m.pressure > 200.0 || m.temperature > 80.0 then Critical
    else if m.pressure > 150.0 || m.temperature > 70.0 then Warning
    else Normal
  }

  /** The material colour for each severity. */
  function Hex(s: Severity): string {
    match s
    case Critical => "#FF4500"
    case Warning => "#FFA500"
    case Normal => "#39FF14"
  }

  /** The colour of a section. */
  function GetColor(m: Metrics): (c: string)
    ensures c == "#FF4500" <==> m.pressure > 200.0 || m.temperature > 80.0
    ensures c == "#FFA500" <==> !(m.pressure > 200.0 || m.temperature > 80.0)
                                && (m.pressure > 150.0 || m.temperature > 70.0)
    ensures c == "#39FF14" <==> m.pressure <= 150.0 && m.temperature <= 70.0
  {
    Hex(SectionSeverity(m))
  }

  /** Distinct severities get distinct colours, so the colour alone tells the
      class. */
  lemma HexInjective(a: Severity, b: Severity)
    requires Hex(a) == Hex(b)
    ensures a == b
  {
  }

  /** Flow rate plays no part in the section colour. */
  lemma FlowRateIgnored(m: Metrics, flow: real)
    ensures GetColor(m.(flowRate := flow)) == GetColor(m)
  {
  }

  /** The pressure comparisons are strict: at a temperature no higher than
      70, exactly 200 PSI is only a warning and exactly 150 PSI is normal. */
  lemma BoundariesAreStrict(t: real, flow: real)
    requires t <= 70.0
    ensures SectionSeverity(Metrics(200.0, t, flow)) == Warning
    ensures SectionSeverity(Metrics(150.0, t, flow)) == Normal
  {
  }

  /** The temperature comparisons are strict too: at a pressure no higher than
      150, exactly 80 degrees is only a warning and exactly 70 is normal. */
  lemma TemperatureBoundariesAreStrict(p: real, flow: real)
    requires p <= 150.0
    ensures SectionSeverity(Metrics(p, 80.0, flow)) == Warning
    ensures SectionSeverity(Metrics(p, 70.0, flow)) == Normal
  {
  }

  /** Raising pressure or temperature never lowers the severity. */
  lemma SeverityMonotone(a: Metrics, b: Metrics)
    requires a.pressure <= b.pressure && a.temperature <= b.temperature
    ensures Rank(SectionSeverity(a)) <= Rank(SectionSeverity(b))
  {
  }

  /** The critical flags shown for the three sensors. */
  datatype CriticalFlags = CriticalFlags(pressure: bool, temperature: bool, flow: bool)

  function Flags(m: Metrics): (f: CriticalFlags)
    ensures f.pressure <==> m.pressure > 200.0
    ensures f.temperature <==> m.temperature > 80.0
    ensures f.flow <==> m.flowRate > 300.0
  {
    CriticalFlags(m.pressure > 200.0, m.temperature > 80.0, m.flowRate > 300.0)
  }

  /** A section is drawn as critical exactly when the pressure or the
      temperature flag is raised; the flow flag alone never makes it critical. */
  lemma CriticalMatchesFlags(m: Metrics)
    ensures SectionSeverity(m) == Critical <==> Flags(m).pressure || Flags(m).temperature
    ensures Flags(m).flow && !Flags(m).pressure && !Flags(m).temperature ==> SectionSeverity(m) != Critical
  {
  }
}

=== FILE: window.dfy ===
/** Bounded sliding windows over a series of samples. The dashboard keeps two
    such windows, written in two different styles: the sensor monitor appends
    and then keeps the last `cap` entries, the simulation page drops the
    oldest entry when already full and then appends. */
module Window {

  /** `a` is a (possibly empty) tail of `b`. */
  ghost predicate IsSuffix<T>(a: seq<T>, b: seq<T>) {
    |a| <= |b| && a == b[|b| - |a|..]
  }

  function Min(a: int, b: int): int {
    if a <= b then a else b
  }

  /** The last `n` entries of `s`, or all of `s` when it is shorter. */
  function LastN<T>(s: seq<T>, n: nat): (r: seq<T>)
    ensures |r| == Min(|s|, n)
    ensures IsSuffix(r, s)
  {
    if |s| <= n then s else s[|s| - n..]
  }

  /** Append `x`, then slice off the front if the result is longer than `cap`. */
  function AppendTrim<T>(w: seq<T>, x: T, cap: nat): (r: seq<T>)
    requires 0 < cap
    ensures |r| == Min(|w| + 1, cap)
    ensures IsSuffix(r, w + [x])
    ensures r[|r| - 1] == x
    ensures |w| < cap ==> r == w + [x]
  {
    var u := w + [x];
    if |u| > cap then u[|u| - cap..] else u
  }

  /** Drop the first entry if the window already holds `cap` or more, then append `x`. */
  function ShiftPush<T>(w: seq<T>, x: T, cap: nat): (r: seq<T>)
    requires 0 < cap
    ensures |w| <= cap ==> |r| == Min(|w| + 1, cap)
    ensures 0 < |r| && r[|r| - 1] == x
    ensures |w| < cap ==> r == w + [x]
    ensures |w| >= cap ==> r[..|r| - 1] == w[1..]
  {
    var v := if |w| >= cap then w[1..] else w;
    v + [x]
  }

  /** On every window that respects its bound, the two styles agree. */
  lemma ShiftPushIsAppendTrim<T>(w: seq<T>, x: T, cap: nat)
    requires 0 < cap && |w| <= cap
    ensures ShiftPush(w, x, cap) == AppendTrim(w, x, cap)
  {
    if |w| == cap {
      assert (w + [x])[|w| + 1 - cap..] == w[1..] + [x];
    }
  }

  /** The window after feeding `xs` one at a time, oldest first. */
  function Feed<T>(w: seq<T>, xs: seq<T>, cap: nat): seq<T>
    requires 0 < cap
    decreases |xs|
  {
    if |xs| == 0 then w else AppendTrim(Feed(w, xs[..|xs| - 1], cap), xs[|xs| - 1], cap)
  }

  /** Keeping the last `n` twice, with one entry appended in between, is the
      same as keeping the last `n` once. */
  lemma LastNAppend<T>(s: seq<T>, y: T, n: nat)
    requires 0 < n
    ensures AppendTrim(LastN(s, n), y, n) == LastN(s + [y], n)
  {
    if |s| > n {
      assert LastN(s, n) + [y] == (s + [y])[|s| - n..];
      assert (s + [y])[|s| - n..][1..] == (s + [y])[|s| + 1 - n..];
    }
  }

  /** After any non-empty run of samples the window is exactly the last `cap`
      of everything seen, in arrival order. */
  lemma {:induction false} FeedIsLastN<T>(w: seq<T>, xs: seq<T>, cap: nat)
    requires 0 < cap && 0 < |xs|
    ensures Feed(w, xs, cap) == LastN(w + xs, cap)
    decreases |xs|
  {
    var init, y := xs[..|xs| - 1], xs[|xs| - 1];
    assert w + xs == (w + init) + [y];
    if |init| == 0 {
      assert Feed(w, init, cap) == w;
      assert w + init == w;
    } else {
      FeedIsLastN(w, init, cap);
      LastNAppend(w + init, y, cap);
    }
  }

  /** A window never grows past its bound, however long the run. */
  lemma FeedBounded<T>(w: seq<T>, xs: seq<T>, cap: nat)
    requires 0 < cap && |w| <= cap
    ensures |Feed(w, xs, cap)| <= cap
  {
    if |xs| > 0 {
      FeedIsLastN(w, xs, cap);
    }
  }
}

=== FILE: wrappers.dfy ===
/** The optional-value datatype used throughout the model for values that
    JavaScript represents as `null` or `undefined`. */
module Wrappers {

  datatype Option<+T> = None | Some(value: T)
}
